=== FILE: README.md ===
# Galaxy point cloud: a Dafny model

This project models the galaxy generator in `src/script.js` of a small
Three.js scene. It covers three parts:

- **The buffer fill** of `generateGalaxy`. For every star `i` it draws a
  radius, picks the spiral arm `i % branches`, and adds a spin angle that
  grows with the radius. It adds a random jitter on every axis. It writes the
  triple (x, y, z) at slots `3i`, `3i + 1` and `3i + 2` of a flat buffer of
  `3 * count` numbers.
- **The lifecycle** of the one galaxy on show. It is held in the slots
  `geometry`, `material` and `points`. `generateGalaxy` first disposes the old
  geometry and material and removes the old `Points` from the scene. Then it
  builds a new geometry, material and `Points` and adds the `Points` to the
  scene. It runs once at start-up and again when any control but the rotation
  speed finishes an edit.
- **The animation frame**, which turns the current `Points` about the y axis
  by `rotationSpeed`.

Modules:

- `Numerics` (`numerics.dfy`) holds `Math.PI`.
  - `Math.cos`, `Math.sin` and `Math.pow` are uninterpreted functions carried
    in a `MathLib` value.
  - What the proofs assume of these functions is stated as predicates:
    cosine and sine lie in `[-1, 1]` (`TrigBounded`), a power of a draw with
    exponent at least 1 stays in `[0, 1)` (`PowKeepsDraws`), and
    `cos(t)^2 + sin(t)^2 == 1` (`Pythagorean`, an exact identity used only by
    `StarOnCircle`). `JitterReachesRim` assumes a few exact values instead.
  - `Math.random()` is a caller-supplied stream `random: nat -> real`. Star
    `i` reads its seven draws at `7i .. 7i + 6`, in the order JavaScript
    evaluates the calls: the radius, then for x, y and z a magnitude draw and
    a sign draw.
- `Galaxy` (`galaxy.dfy`) holds the per-star arithmetic, the reference buffer
  `Positions` and the loop `FillPositions`.
  - The loop writes into an array and carries a ghost log of the slots it
    stores to.
- `Lifecycle` (`lifecycle.dfy`) holds the world the code acts on. Three.js
  objects are handles. Every `dispose()`, `scene.remove` and `scene.add` is
  logged. It also holds `Regenerate` (= `generateGalaxy`), `Tick`, `Commit`
  (a finished edit) and `Run` (a sequence of frames and edits).
- `LifecycleFacts` (`lifecycle_facts.dfy`) holds two invariants and the
  lemmas that relate the operations.
  - `Inv` holds in every reachable world, including after a throw.
  - `Live` holds after a first call that returns, and after any later run
    whose edits stay within the controls' ranges.

## Model

| member | source | states |
|---|---|---|
| `Galaxy.Positions` | src/script.js:59-87 | the buffer has exactly `3 * count` numbers, and slot `3i + axis` holds coordinate `axis` of star `i` |
| `Galaxy.Flatten` | src/script.js:84-86 | laying out triples contiguously puts coordinate `axis` of star `i` at slot `3i + axis`, with no slot beyond the last triple |
| `Galaxy.FillPositions` | src/script.js:59-87 | the loop over a zeroed `Float32Array` of `3 * count` ends with the reference buffer; its log of stores is `0, 1, ..., 3 * count - 1`, so every slot is written exactly once, in order |
| `Galaxy.LayoutDetermines` | src/script.js:65-67 | a buffer of `3 * count` slots that holds every star's triple at `3i .. 3i + 2` is the flattened buffer: no slot is left over |
| `Galaxy.SlotLayout` | src/script.js:67 | every slot `k < 3 * count` belongs to exactly one pair (star `k / 3`, axis `k % 3`) |
| `Galaxy.DrawsOf` | src/script.js:70-81 | star `i` reads the seven `Math.random()` results `7i .. 7i + 6`, in evaluation order; see `DrawsAdvance` and `DrawsInRange` for what it promises |
| `Galaxy.DrawsAdvance` | src/script.js:65-81 | the stream is consumed in blocks of seven: star `i + 1` reads what star `i` reads once the first seven results are used up |
| `Galaxy.DrawsInRange` | src/script.js:70-81 | when every `Math.random()` result lies in `[0, 1)`, so do a star's radius draw and its three magnitude draws |
| `Galaxy.StarRadius` | src/script.js:70 | `Math.random() * radius`; `StarRadiusInRange` bounds it |
| `Galaxy.SpinAngle` | src/script.js:73 | `radius * spin * 100`; `SpiralArm` states what it does to an arm |
| `Galaxy.StarAngle` | src/script.js:84-86 | the one angle of x and z, branch angle plus spin angle; `SpiralArm`, `StarOnCircle` and `StarWithoutRandomness` state it |
| `Galaxy.SpiralArm` | src/script.js:73-86 | along one arm the angle grows by `100 * spin` per unit of distance, so each arm is an Archimedean spiral; without spin a star sits at its arm's branch angle |
| `Galaxy.StarRadiusInRange` | src/script.js:70 | with a draw in `[0, 1)` and `radius >= 0`, the star's distance lies in `[0, radius]`, and in `[0, radius)` when `radius > 0` |
| `Galaxy.ArmPeriodic` | src/script.js:76 | the arm `i % branches` lies in `[0, branches)`; stars `i` and `i + branches` share arm and branch angle |
| `Galaxy.ArmRepeats` | src/script.js:76 | stars whose indices differ by any multiple of `branches` share arm and branch angle |
| `Galaxy.Arm` | src/script.js:76 | the arm `i % branches` of a star lies in `[0, abs(branches))`, for either sign of `branches` |
| `Galaxy.BranchAngle` | src/script.js:76 | the arm's share of a full turn; `BranchAngleInRange` bounds it to `[0, 2 * PI)` and `ArmPeriodic` makes it repeat every `branches` stars |
| `Galaxy.BranchAngleInRange` | src/script.js:76 | every branch angle lies in `[0, 2 * PI)` |
| `Galaxy.Sign` | src/script.js:79-81 | the sign factor of a jitter is `+1` or `-1`, nothing else |
| `Galaxy.Jitter` | src/script.js:79-81 | the random offset on one axis; `JitterBound` keeps it within `randomness * r` of zero |
| `Galaxy.JitterBound` | src/script.js:79-81 | with the powered draw in `[0, 1)` and `randomness >= 0`, an axis jitter is at most `randomness * r` in absolute value, whatever the sign draw |
| `Galaxy.StarBounds` | src/script.js:70-86 | given draws in `[0, 1)`, `radius >= 0`, `randomness >= 0`, `randomnessPower >= 1` and cosine and sine in `[-1, 1]`, every star lies in the box `abs(x), abs(z) <= radius + randomness * radius` and `abs(y) <= randomness * radius` |
| `Galaxy.Star` | src/script.js:70-86 | the position of one star; its contract lives in `StarBounds` (the box), `StarOnCircle` (x and z share one angle) and `StarWithoutRandomness` |
| `Galaxy.PositionsInBox` | src/script.js:65-87 | when every `Math.random()` result lies in `[0, 1)`, every number of the buffer lies in the `StarBounds` box: slots `3i + 1` within `randomness * radius`, the others within `radius + randomness * radius` |
| `Galaxy.StarWithoutRandomness` | src/script.js:79-86 | with `randomness == 0` a star is exactly `(cos(angle) * r, 0, sin(angle) * r)` |
| `Galaxy.InsideRimWithoutRandomness` | src/script.js:70-86 | with `randomness == 0` and `radius > 0` no star is `(radius, 0, 0)` |
| `Galaxy.JitterReachesRim` | src/script.js:70-86 | with randomness 2 and no spin, a star drawing half the radius and an x jitter of `0.5 * 2 * r` is exactly `(radius, 0, 0)`, for any radius and number of arms; for a true `pow`, `pow(0.5, p) == 0.5` means `randomnessPower == 1` |
| `Galaxy.StarOnCircle` | src/script.js:84-86 | x and z share one angle: with the x and z jitters taken off, every star lies on the circle of its radius in the xz-plane; without randomness the star itself does, at `y == 0` |
| `Galaxy.TwoArmsWithoutSpin` | src/script.js:73-76 | with two arms, no spin and no randomness, even stars lie at angle 0 and odd stars at angle `PI` |
| `Lifecycle.Regenerate` | src/script.js:45-105 | `generateGalaxy` throws exactly when `count < 0`; when it returns, the slot's `Points` is in the scene |
| `Lifecycle.GenerateGalaxy` | src/script.js:45-105 | the version that fills the buffer with the loop ends in the same world, or the same throw, as `Regenerate` |
| `Lifecycle.Teardown` | src/script.js:48-53 | the teardown leaves the parameters alone, and when `points` is non-null, `geometry` and `material` are non-null and `points` names a built `Points`; `TeardownEmptiesScene` states what it logs |
| `Lifecycle.NewGeometry` | src/script.js:57 | a fresh geometry fills the slot; `NewGeometryInv` shows it keeps the invariant and is not disposed |
| `Lifecycle.Build` | src/script.js:89-103 | the buffer becomes the geometry's positions and a fresh material and `Points` fill their slots; `BuildInv` and `RegenerateShows` state the result |
| `Lifecycle.Show` | src/script.js:104 | `scene.add(points)`; `RegenerateShows` and `RegenerateOrder` state that it is the last call and lands in an empty scene |
| `Lifecycle.Tick` | src/script.js:171-173 | a frame leaves the parameters alone, and when `points` is non-null, `geometry` and `material` are non-null and `points` names a built `Points`; `TickTurns` and `TickWithoutGalaxy` state the rotation |
| `Lifecycle.Commit` | src/script.js:107-114 | a finished edit changes exactly the edited parameter and never leaves `branches == 0`; `SpeedEditKeepsGalaxy` and `EditRegenerates` state the two kinds |
| `Lifecycle.Startup` | src/script.js:117 | the first call throws exactly when `count < 0` and otherwise puts a `Points` in the scene; on the initial parameters it returns (`DefaultStartup`) |
| `LifecycleFacts.EmitInv` | src/script.js:50-53 | a logged dispose, remove or add keeps the invariant and raises the count of its own kind by one |
| `LifecycleFacts.InitInv` | src/script.js:41-43 | with all three slots null the invariant holds and no galaxy is in the scene |
| `LifecycleFacts.TeardownEmptiesScene` | src/script.js:48-53 | the teardown keeps the invariant and leaves no galaxy in the scene; it logs two disposals and one removal when a galaxy exists, and nothing otherwise |
| `LifecycleFacts.NewGeometryInv` | src/script.js:57 | the fresh geometry keeps the invariant and has not been disposed |
| `LifecycleFacts.BuildInv` | src/script.js:89-103 | the new material and `Points` keep the invariant, and the material has not been disposed |
| `LifecycleFacts.RegenerateThrows` | src/script.js:57-59 | with `count < 0` the call throws a `RangeError` after the teardown. The scene holds no galaxy, yet `points` still names the old one, and `geometry` names a fresh, undisposed one |
| `LifecycleFacts.RegenerateShows` | src/script.js:89-104 | with `count >= 0` the new `Points` is alone in the scene. It is built from the fresh geometry holding the generated buffer and from a material of the current `size`, with rotation 0 |
| `LifecycleFacts.RegenerateInv` | src/script.js:45-105 | every call keeps the invariant: at most the slot's `Points` in the scene, the scene equal to the replay of the logged calls, and every add made into an empty scene |
| `LifecycleFacts.TeardownClears` | src/script.js:48-53 | after tearing down a live galaxy, every geometry and material built so far is disposed and the scene is empty |
| `LifecycleFacts.RebuildLive` | src/script.js:57-104 | building on a cleared world gives a live world with one more generation |
| `LifecycleFacts.RegenerateReplaces` | src/script.js:45-105 | from start-up or from a live galaxy, a call that does not throw gives a live world with a new `Points` and one more generation |
| `LifecycleFacts.RegenerateOrder` | src/script.js:48-104 | with a galaxy present, the log gains: dispose old geometry, dispose old material, remove old `Points`, add new `Points`, in that order |
| `LifecycleFacts.RecoversAfterThrow` | src/script.js:45-105 | after a throw no galaxy is shown, and the next call that does not throw shows exactly one again |
| `LifecycleFacts.ThrowLog` | src/script.js:48-59 | a throwing call on a world with a galaxy logs the whole teardown, puts a fresh geometry in the slot, and leaves `points` and `material` naming the torn-down pair |
| `LifecycleFacts.ThrowRepeatsTeardown` | src/script.js:48-59 | from a live world, a throwing call followed by one that returns logs the teardown twice: the old material is disposed twice and the old `Points` removed twice, so removals equal additions, four more disposals are logged and the world is not live |
| `LifecycleFacts.StartupThrowLeaks` | src/script.js:48-59 | when the first call throws, the geometry of line 57 is never disposed by the next call that returns, so that world leaks |
| `LifecycleFacts.AtMostOneGalaxy` | src/script.js:41-43 | the invariant allows at most one galaxy in the scene |
| `LifecycleFacts.TickTurns` | src/script.js:171-173 | a frame turns the shown galaxy by exactly `rotationSpeed` and keeps a live world live, with the scene and the log unchanged |
| `LifecycleFacts.TickWithoutGalaxy` | src/script.js:171 | while `points` is null a frame is a no-op |
| `LifecycleFacts.TicksTurn` | src/script.js:171-173 | `n` frames turn the galaxy by `n * rotationSpeed` and change nothing else |
| `LifecycleFacts.SpeedEditKeepsGalaxy` | src/script.js:114 | a rotation-speed edit creates, disposes, removes and adds nothing; the next frame turns by the new speed |
| `LifecycleFacts.EditRegenerates` | src/script.js:107-113 | any other edit within the controls' ranges regenerates. The world stays live with one more generation, and the new galaxy reflects the edited parameters |
| `LifecycleFacts.ControlsKeepArms` | src/script.js:111 | edits within the controls' ranges never set `branches` to 0: the arms control runs from 2 to 20 |
| `LifecycleFacts.StepKeepsInv` | src/script.js:107-114 | any frame or finished edit keeps the invariant |
| `LifecycleFacts.RunKeepsInv` | src/script.js:45-114 | after any run of frames and edits the invariant holds and at most one galaxy is in the scene |
| `LifecycleFacts.StepKeepsLive` | src/script.js:107-114 | any frame or edit within the controls' ranges keeps a live world live; it adds one galaxy when it calls `generateGalaxy` and none otherwise |
| `LifecycleFacts.RunKeepsLive` | src/script.js:45-114 | through the controls a live world stays live: exactly one galaxy shown, removals = generations - 1, disposals = 2 * removals, no geometry or material leaked; the run adds exactly one galaxy per finished edit of a control other than the rotation speed |
| `LifecycleFacts.StartupShowsOne` | src/script.js:117 | the first call shows exactly one galaxy with a buffer of `3 * count` numbers; the log holds one add and nothing has been disposed |
| `LifecycleFacts.DefaultStartup` | src/script.js:31-39 | with the initial parameters the first call shows one galaxy built from the reference buffer of 3000 numbers |
| `LifecycleFacts.EmptyGalaxy` | src/script.js:59-65 | with `count == 0` the buffer is empty and the call does not throw; a starless `Points` is still shown |

Notes on how the code was read:

- **Sign draw.** The sign is `+1` when the sign draw is below 0.5 and `-1`
  otherwise (src/script.js:79-81). None of the bounds depend on the sign.
- **Radius.** A star's distance from the centre before the jitter is
  `draw * radius` with the draw in `[0, 1)`, so it is below `radius` whenever
  `radius > 0`. With `randomness == 0` there is no jitter, so no star reaches
  the rim and `(radius, 0, 0)` is never a star (`InsideRimWithoutRandomness`).
  With `randomness > 0` the jitter can carry a star onto the rim or past it
  (`JitterReachesRim`).
- **Negative count.** `new Float32Array(count * 3)` throws for a negative
  count (src/script.js:59). By then the teardown has run and line 57 has put a
  fresh geometry in the slot, while `points` still names the removed galaxy.
  `Regenerate` returns `Threw` with that partial world. `RegenerateThrows`,
  `ThrowLog` and `RecoversAfterThrow` describe it. The next call that returns
  runs lines 48-52 again on that world. It disposes the fresh geometry, then
  disposes the old material a second time and removes the old `Points` a
  second time. From a live world, one throwing call followed by one that
  returns therefore logs four more disposals and as many removals as
  additions, so `Live` no longer holds (`ThrowRepeatsTeardown`). If the very
  first call throws, `points` is still null, so the next call skips the
  teardown and the geometry of line 57 is never disposed
  (`StartupThrowLeaks`). The count control's range starts at 100, so the
  controls alone never reach any of this. The first call cannot throw
  either: line 117 always runs on the constants of lines 32-39, with a count
  of 1000. `Startup` takes its parameters as an argument, so its throwing
  branch and `StartupThrowLeaks` describe a case the program never reaches.
- **Arms.** `branches` is an integer and must be non-zero. For `i >= 0`,
  JavaScript's `%` and Dafny's agree whatever the sign of `branches`.
- **Ordering.** The order of the teardown is stated on the event log. `Inv`
  relates the scene to a replay of that log (`SceneOf`). It also requires
  every add to be made into an empty scene (`AddsIntoEmptyScene`).

## Left out

- The WebGL rendering and the Three.js internals are not modelled. This
  covers `BufferAttribute`, the `PointsMaterial` options other than `size`,
  and `WebGLRenderer` and `render`. They are foreign library code; objects
  are opaque handles.
- The camera, `OrbitControls`, the resize handler, `THREE.Clock` and the
  `requestAnimationFrame` driver are not modelled. They are host and UI
  plumbing. A run is given as an explicit sequence of frames and edits.
- The lil-gui `step` snapping is not modelled. The controls' `min` and `max`
  appear only in `WithinControls`, which is used to show that edits made
  through the controls never throw.
- The commented-out audio and colour code (src/script.js:14-27, 60-63, 90) is
  dead code.
- Exact values of `Math.cos`, `Math.sin`, `Math.pow` and `Math.random` are
  not modelled. The proofs assume their ranges, the identity
  `cos(t)^2 + sin(t)^2 == 1` (`Pythagorean`, for `StarOnCircle` only) and, in
  `JitterReachesRim` only, the values `cos(0) == 1`, `sin(0) == 0`,
  `pow(0.5, p) == 0.5` and `pow(0, p) == 0`. `Math.PI` is its printed
  decimal.
- Galaxy.StarOnCircle: the circle holds for exact cosine and sine, not for
  JavaScript's doubles. `Math.cos(t)^2 + Math.sin(t)^2` can differ from 1
  in the last bit, so the computed star lies on the circle only up to
  rounding.
- Galaxy.FillPositions: stores exact reals. The 32-bit float rounding of
  `Float32Array` is not modelled, so the bounds hold of the exact values.
- Galaxy.Star: the products and sums of lines 70-86 are computed on exact
  reals, not on the 64-bit doubles JavaScript rounds each step to. The bounds
  of `StarBounds` and `PositionsInBox` hold of the exact values.
- LifecycleFacts.TicksTurn: `points.rotation.y += rotationSpeed` (line 172)
  is summed exactly. JavaScript rounds each of the `n` additions to a double,
  so its rotation after `n` frames can differ from `n * rotationSpeed` in the
  last bits.
- Galaxy.StarRadiusInRange: for `radius == 0` the half-open interval
  `[0, radius)` is empty. The lemma states `[0, radius]` in general and
  `[0, radius)` only for `radius > 0`.
- A fractional `count` or `branches`, and an array too large to allocate, are
  not modelled. Both parameters are integers here. The second needs a memory
  limit the model does not have.
- `branches == 0` is excluded by a precondition. In JavaScript it makes the
  branch angle `NaN`, which has no counterpart among the reals. The arms
  control starts at 2.
- A throw at line 117 would end the module before lines 119-183 run, so
  `tick()` would never be scheduled. `Run` does not model that: it allows
  frames after any world. The program's own first call runs on a count of
  1000 and never throws.
- The number of draws a frame or the renderer makes outside the generator is
  not modelled. Each edit in a run carries its own draw stream.

=== FILE: galaxy.dfy ===
/** The galaxy point-cloud buffer: one (x, y, z) triple per star, written by
    `generateGalaxy` into a flat position buffer.
 */
module Galaxy {
  import opened Numerics

  /** The `parameters` object. `count` and `branches` are integers in the
      program (the controls step by 100 and by 1); the rest are numbers. */
  datatype Parameters = Parameters(
    count: int,
    size: real,
    radius: real,
    branches: int,
    spin: real,
    randomness: real,
    randomnessPower: real,
    rotationSpeed: real)

  /** The values the program starts with. */
  const Defaults: Parameters := Parameters(1000, 0.01, 100.0, 9, 3.0, 0.1, 9.0, 0.0023)

  datatype Vec3 = Vec3(x: real, y: real, z: real)

  /** The two `Math.random()` results one axis jitter consumes: the first is
      raised to `randomnessPower`, the second picks the sign. */
  datatype AxisDraw = AxisDraw(magnitude: real, sign: real)

  /** Everything one star draws, in the order JavaScript evaluates the calls. */
  datatype StarDraws = StarDraws(radius: real, x: AxisDraw, y: AxisDraw, z: AxisDraw)

  /** Each star makes seven `Math.random()` calls. */
  const DrawsPerStar: nat := 7

  /** The draws of star `i`, read off the stream of `Math.random()` results. */
  function DrawsOf(random: nat -> real, i: nat): StarDraws {
    var b := DrawsPerStar * i;
    StarDraws(random(b),
              AxisDraw(random(b + 1), random(b + 2)),
              AxisDraw(random(b + 3), random(b + 4)),
              AxisDraw(random(b + 5), random(b + 6)))
  }

  /** The stream is read in blocks of seven: star `i + 1` reads what star
      `i` would read once the first star's seven draws are consumed. */
  lemma DrawsAdvance(random: nat -> real, i: nat)
    ensures DrawsOf(random, i + 1) == DrawsOf((k: nat) => random(k + DrawsPerStar), i)
  {
  }

  /** Distance of a star from the galaxy centre. */
  function StarRadius(p: Parameters, u: real): real {
    u * p.radius
  }

  /** Extra twist that grows with the distance from the centre. */
  function SpinAngle(p: Parameters, r: real): real {
    r * p.spin * 100.0
  }

  /** The spiral arm of star `i`: round-robin over the arms by index. For
      `i >= 0` JavaScript's `%` and Dafny's agree, whatever the sign of
      `branches`. */
  function Arm(p: Parameters, i: nat): (a: int)
    requires p.branches != 0
    ensures 0 <= a < if p.branches > 0 then p.branches else -p.branches
  {
    i % p.branches
  }

  function BranchAngle(p: Parameters, i: nat): real
    requires p.branches != 0
  {
    Arm(p, i) as real / p.branches as real * Pi * 2.0
  }

  /** `Math.random() < 0.5 ? 1 : -1` */
  function Sign(u: real): (s: real)
    ensures s == 1.0 || s == -1.0
  {
    if u < 0.5 then 1.0 else -1.0
  }

  function Jitter(p: Parameters, m: MathLib, d: AxisDraw, r: real): real {
    m.pow(d.magnitude, p.randomnessPower) * Sign(d.sign) * p.randomness * r
  }

  /** The angle shared by the x and z coordinates of star `i` at distance `r`. */
  function StarAngle(p: Parameters, i: nat, r: real): real
    requires p.branches != 0
  {
    BranchAngle(p, i) + SpinAngle(p, r)
  }

  /** The position of star `i`, given its draws. */
  function Star(p: Parameters, m: MathLib, i: nat, d: StarDraws): Vec3
    requires p.branches != 0
  {
    var r := StarRadius(p, d.radius);
    var angle := StarAngle(p, i, r);
    Vec3(m.cos(angle) * r + Jitter(p, m, d.x, r),
         Jitter(p, m, d.y, r),
         m.sin(angle) * r + Jitter(p, m, d.z, r))
  }

  /** Star `i` of the generation that reads `random`. */
  function StarAt(p: Parameters, m: MathLib, random: nat -> real, i: nat): Vec3
    requires p.branches != 0
  {
    Star(p, m, i, DrawsOf(random, i))
  }

  /** Coordinate `axis` (0 = x, 1 = y, 2 = z) of a star. */
  function Coordinate(v: Vec3, axis: nat): real
    requires axis < 3
  {
    if axis == 0 then v.x else if axis == 1 then v.y else v.z
  }

  /** The slot of coordinate `axis` of star `i` in the flat buffer. */
  function Slot(i: nat, axis: nat): nat
    requires axis < 3
  {
    3 * i + axis
  }

  /** `buf` holds coordinate `axis` of `stars[i]` at slot `3 * i + axis`,
      and has no slot beyond the last triple. */
  ghost predicate LaidOut(buf: seq<real>, stars: seq<Vec3>) {
    && |buf| == 3 * |stars|
    && forall i: nat, axis: nat :: i < |stars| && axis < 3 ==> buf[Slot(i, axis)] == Coordinate(stars[i], axis)
  }

  /** Lays triples out contiguously, one after the other. */
  function Flatten(stars: seq<Vec3>): (buf: seq<real>)
    ensures LaidOut(buf, stars)
  {
    var buf := seq(3 * |stars|, k requires 0 <= k < 3 * |stars| => Coordinate(stars[k / 3], k % 3));
    assert LaidOut(buf, stars) by {
      forall i: nat, axis: nat | i < |stars| && axis < 3
        ensures buf[Slot(i, axis)] == Coordinate(stars[i], axis)
      {
        SlotOwner(i, axis);
      }
    }
    buf
  }

  /** The stars of one generation, in index order. */
  function Stars(p: Parameters, m: MathLib, random: nat -> real): (stars: seq<Vec3>)
    requires p.count >= 0 && p.branches != 0
    ensures |stars| == p.count
    ensures forall i :: 0 <= i < p.count ==> stars[i] == StarAt(p, m, random, i)
  {
    seq(p.count, i requires 0 <= i < p.count => StarAt(p, m, random, i))
  }

  /** The position buffer a generation produces: `3 * count` numbers, star
      `i` at slots `3i` (x), `3i + 1` (y) and `3i + 2` (z). */
  function Positions(p: Parameters, m: MathLib, random: nat -> real): (buf: seq<real>)
    requires p.count >= 0 && p.branches != 0
    ensures |buf| == 3 * p.count
    ensures forall i: nat, axis: nat :: i < p.count && axis < 3 ==>
              buf[Slot(i, axis)] == Coordinate(StarAt(p, m, random, i), axis)
  {
    Flatten(Stars(p, m, random))
  }

  /** The loop of `generateGalaxy`: fills a zeroed buffer of `3 * count`
      numbers, one triple per star. The ghost `writes` lists the slots stored
      to, in order: every slot of the buffer exactly once, in increasing order. */
  method FillPositions(p: Parameters, m: MathLib, random: nat -> real) returns (positions: seq<real>, ghost writes: seq<nat>)
    requires p.count >= 0 && p.branches != 0
    ensures |positions| == 3 * p.count
    ensures positions == Positions(p, m, random)
    ensures |writes| == |positions| && forall k :: 0 <= k < |writes| ==> writes[k] == k
  {
    ghost var stars := Stars(p, m, random);
    var buf := new real[3 * p.count](_ => 0.0);
    writes := [];
    var i := 0;
    while i < p.count
      invariant 0 <= i <= p.count && buf.Length == 3 * p.count
      invariant FilledUpTo(buf[..], stars, i)
      invariant |writes| == 3 * i && InOrder(writes)
    {
      var i3 := i * 3;
      var s := StarAt(p, m, random, i);
      ghost var before, logged := buf[..], writes;
      buf[i3] := s.x;
      writes := writes + [i3];
      buf[i3 + 1] := s.y;
      writes := writes + [i3 + 1];
      buf[i3 + 2] := s.z;
      writes := writes + [i3 + 2];
      assert buf[..] == before[i3 := s.x][i3 + 1 := s.y][i3 + 2 := s.z];
      assert writes == logged + [i3, i3 + 1, i3 + 2];
      InOrderNext(logged);
      FillNext(before, stars, i);
      i := i + 1;
    }
    positions := buf[..];
    LayoutDetermines(positions, stars);
  }

  /** Slot `k` was the `k`-th store. */
  ghost predicate InOrder(writes: seq<nat>) {
    forall k :: 0 <= k < |writes| ==> writes[k] == k
  }

  /** Storing the three slots after the last one keeps the stores in order. */
  lemma InOrderNext(writes: seq<nat>)
    requires InOrder(writes)
    ensures InOrder(writes + [|writes|, |writes| + 1, |writes| + 2])
  {
  }

  /** The first `n` stars' triples are in place. */
  ghost predicate FilledUpTo(buf: seq<real>, stars: seq<Vec3>, n: nat) {
    && |buf| == 3 * |stars| && n <= |stars|
    && forall j: nat, axis: nat :: j < n && axis < 3 ==> buf[Slot(j, axis)] == Coordinate(stars[j], axis)
  }

  /** Storing star `n` at slots `3n .. 3n + 2` extends the filled prefix by one
      star and leaves the earlier triples alone. */
  lemma FillNext(buf: seq<real>, stars: seq<Vec3>, n: nat)
    requires FilledUpTo(buf, stars, n) && n < |stars|
    ensures FilledUpTo(buf[3 * n := stars[n].x][3 * n + 1 := stars[n].y][3 * n + 2 := stars[n].z], stars, n + 1)
  {
  }

  /** A buffer that holds every star's triple at its slots is the flattened
      buffer: the triples leave no slot unaccounted for. */
  lemma LayoutDetermines(buf: seq<real>, stars: seq<Vec3>)
    requires LaidOut(buf, stars)
    ensures buf == Flatten(stars)
  {
    var flat := Flatten(stars);
    forall k | 0 <= k < |buf|
      ensures buf[k] == flat[k]
    {
      SlotLayout(|stars|, k);
    }
  }

  /** Slot `3 * i + axis` holds coordinate `axis` of star `i`. */
  lemma SlotOwner(i: nat, axis: nat)
    requires axis < 3
    ensures Slot(i, axis) / 3 == i && Slot(i, axis) % 3 == axis
  {
  }

  /** Every slot of the buffer belongs to exactly one (star, axis) pair. */
  lemma SlotLayout(count: nat, k: nat)
    requires k < 3 * count
    ensures k / 3 < count && k % 3 < 3 && Slot(k / 3, k % 3) == k
    ensures forall i: nat, axis: nat :: axis < 3 && Slot(i, axis) == k ==> i == k / 3 && axis == k % 3
  {
  }

  /** With a draw in `[0, 1)` and a non-negative radius parameter, a star lies
      at most `radius` from the centre, strictly inside when the radius is positive. */
  lemma StarRadiusInRange(p: Parameters, u: real)
    requires IsDraw(u) && p.radius >= 0.0
    ensures 0.0 <= StarRadius(p, u) <= p.radius
    ensures p.radius > 0.0 ==> StarRadius(p, u) < p.radius
  {
    MulLe(0.0, u, p.radius);
    MulLe(u, 1.0, p.radius);
    if p.radius > 0.0 {
      MulLt(u, 1.0, p.radius);
    }
  }

  /** The arm index lies in `[0, branches)`, and stars `branches` apart share
      their arm and their branch angle. */
  lemma ArmPeriodic(p: Parameters, i: nat)
    requires p.branches >= 1
    ensures 0 <= Arm(p, i) < p.branches
    ensures Arm(p, i + p.branches) == Arm(p, i)
    ensures BranchAngle(p, i + p.branches) == BranchAngle(p, i)
  {
    var b := p.branches;
    var q, r := i / b, i % b;
    assert i + b == b * (q + 1) + r;
    DivModUnique(i + b, b, q + 1, r);
  }

  /** Stars whose indices differ by a multiple of `branches` share their arm. */
  lemma {:induction false} ArmRepeats(p: Parameters, i: nat, n: nat)
    requires p.branches >= 1
    ensures Arm(p, i + n * p.branches) == Arm(p, i)
    ensures BranchAngle(p, i + n * p.branches) == BranchAngle(p, i)
  {
    if n > 0 {
      var j := i + (n - 1) * p.branches;
      assert j + p.branches == i + n * p.branches by {
        MulSucc(n - 1, p.branches);
      }
      ArmRepeats(p, i, n - 1);
      ArmPeriodic(p, j);
    }
  }

  /** The branch angle of every arm lies in `[0, 2 * Pi)`. */
  lemma BranchAngleInRange(p: Parameters, i: nat)
    requires p.branches >= 1
    ensures 0.0 <= BranchAngle(p, i) < 2.0 * Pi
  {
    var a, b := Arm(p, i) as real, p.branches as real;
    assert 0.0 <= a < b;
    var f := a / b;
    assert 0.0 <= f < 1.0 by {
      assert f * b == a;
    }
    assert BranchAngle(p, i) == f * Pi * 2.0;
  }

  /** Given a powered draw in `[0, 1)` and `randomness >= 0`, an axis jitter
      is at most `randomness * r` in absolute value. */
  lemma JitterBound(p: Parameters, m: MathLib, d: AxisDraw, r: real)
    requires PowKeepsDraws(m) && IsDraw(d.magnitude) && p.randomnessPower >= 1.0
    requires p.randomness >= 0.0 && r >= 0.0
    ensures Abs(Jitter(p, m, d, r)) <= p.randomness * r
  {
    var q := m.pow(d.magnitude, p.randomnessPower);
    assert 0.0 <= q < 1.0;
    var s := p.randomness * r;
    MulLe(0.0, p.randomness, r);
    assert Jitter(p, m, d, r) == Sign(d.sign) * (q * s);
    MulLe(0.0, q, s);
    MulLe(q, 1.0, s);
  }

  /** Every coordinate of a star stays within the box the parameters allow:
      `radius + randomness * radius` in the galactic plane and
      `randomness * radius` above or below it. */
  lemma StarBounds(p: Parameters, m: MathLib, i: nat, d: StarDraws)
    requires p.branches != 0 && p.radius >= 0.0 && p.randomness >= 0.0 && p.randomnessPower >= 1.0
    requires TrigBounded(m) && PowKeepsDraws(m)
    requires IsDraw(d.radius) && IsDraw(d.x.magnitude) && IsDraw(d.y.magnitude) && IsDraw(d.z.magnitude)
    ensures Abs(Star(p, m, i, d).x) <= p.radius + p.randomness * p.radius
    ensures Abs(Star(p, m, i, d).y) <= p.randomness * p.radius
    ensures Abs(Star(p, m, i, d).z) <= p.radius + p.randomness * p.radius
  {
    var r := StarRadius(p, d.radius);
    assert 0.0 <= r <= p.radius by {
      StarRadiusInRange(p, d.radius);
    }
    StarParts(p, m, i, d, r);
    PlacedBounds(p, m, StarAngle(p, i, r), r, d, Star(p, m, i, d));
  }

  /** Every number of a generation's buffer lies in the `StarBounds` box:
      slots `3i + 1` (heights) within `randomness * radius`, the others
      within `radius + randomness * radius`, as long as every
      `Math.random()` result is a draw in `[0, 1)`. */
  lemma PositionsInBox(p: Parameters, m: MathLib, random: nat -> real, k: nat)
    requires p.count >= 0 && p.branches != 0 && p.radius >= 0.0 && p.randomness >= 0.0 && p.randomnessPower >= 1.0
    requires TrigBounded(m) && PowKeepsDraws(m) && IsDrawStream(random)
    requires k < 3 * p.count
    ensures k % 3 == 1 ==> Abs(Positions(p, m, random)[k]) <= p.randomness * p.radius
    ensures k % 3 != 1 ==> Abs(Positions(p, m, random)[k]) <= p.radius + p.randomness * p.radius
  {
    var i, axis := k / 3, k % 3;
    var v := StarAt(p, m, random, i);
    var e := p.randomness * p.radius;
    assert Abs(v.x) <= p.radius + e && Abs(v.y) <= e && Abs(v.z) <= p.radius + e by {
      DrawsInRange(random, i);
      StarBounds(p, m, i, DrawsOf(random, i));
    }
    assert Positions(p, m, random)[k] == Coordinate(v, axis) by {
      SlotLayout(p.count, k);
    }
  }

  /** A stream of draws hands every star draws in `[0, 1)`. */
  lemma DrawsInRange(random: nat -> real, i: nat)
    requires IsDrawStream(random)
    ensures var d := DrawsOf(random, i);
            IsDraw(d.radius) && IsDraw(d.x.magnitude) && IsDraw(d.y.magnitude) && IsDraw(d.z.magnitude)
  {
  }

  /** `StarBounds` for a point placed at `angle` and distance `r <= radius`
      and jittered by the draws `d`. */
  lemma PlacedBounds(p: Parameters, m: MathLib, angle: real, r: real, d: StarDraws, s: Vec3)
    requires p.randomness >= 0.0 && p.randomnessPower >= 1.0 && 0.0 <= r <= p.radius
    requires TrigBounded(m) && PowKeepsDraws(m)
    requires IsDraw(d.x.magnitude) && IsDraw(d.y.magnitude) && IsDraw(d.z.magnitude)
    requires s == Vec3(m.cos(angle) * r + Jitter(p, m, d.x, r), Jitter(p, m, d.y, r), m.sin(angle) * r + Jitter(p, m, d.z, r))
    ensures Abs(s.x) <= p.radius + p.randomness * p.radius
    ensures Abs(s.y) <= p.randomness * p.radius
    ensures Abs(s.z) <= p.radius + p.randomness * p.radius
  {
    var e := p.randomness * p.radius;
    var cr, sr := m.cos(angle) * r, m.sin(angle) * r;
    var jx, jy, jz := Jitter(p, m, d.x, r), Jitter(p, m, d.y, r), Jitter(p, m, d.z, r);
    assert Abs(cr) <= r && Abs(sr) <= r by {
      ArmOffsetBounds(m, angle, r);
    }
    assert Abs(jx) <= e by {
      JitterWithin(p, m, d.x, r);
    }
    assert Abs(jy) <= e by {
      JitterWithin(p, m, d.y, r);
    }
    assert Abs(jz) <= e by {
      JitterWithin(p, m, d.z, r);
    }
    SumWithin(s.x, cr, jx, p.radius, e);
    SumWithin(s.y, 0.0, jy, 0.0, e);
    SumWithin(s.z, sr, jz, p.radius, e);
  }

  /** A jitter at distance `r <= radius` is at most `randomness * radius`. */
  lemma JitterWithin(p: Parameters, m: MathLib, a: AxisDraw, r: real)
    requires PowKeepsDraws(m) && IsDraw(a.magnitude) && p.randomnessPower >= 1.0
    requires p.randomness >= 0.0 && 0.0 <= r <= p.radius
    ensures Abs(Jitter(p, m, a, r)) <= p.randomness * p.radius
  {
    JitterBound(p, m, a, r);
    ScaleLe(p.randomness, r, p.radius);
  }

  /** A sum of two parts lies within the sum of their bounds. */
  lemma SumWithin(x: real, a: real, b: real, bound: real, spread: real)
    requires x == a + b && Abs(a) <= bound && Abs(b) <= spread
    ensures Abs(x) <= bound + spread
  {
  }

  /** The arm position of a star at distance `r` lies within `r` on each axis. */
  lemma ArmOffsetBounds(m: MathLib, angle: real, r: real)
    requires TrigBounded(m) && r >= 0.0
    ensures Abs(m.cos(angle) * r) <= r && Abs(m.sin(angle) * r) <= r
  {
    ScaledUnit(m.cos(angle), r);
    ScaledUnit(m.sin(angle), r);
  }

  /** A star is its arm position plus one jitter per axis. */
  lemma StarParts(p: Parameters, m: MathLib, i: nat, d: StarDraws, r: real)
    requires p.branches != 0 && r == StarRadius(p, d.radius)
    ensures var angle := StarAngle(p, i, r);
            Star(p, m, i, d) == Vec3(m.cos(angle) * r + Jitter(p, m, d.x, r),
                                     Jitter(p, m, d.y, r),
                                     m.sin(angle) * r + Jitter(p, m, d.z, r))
  {
  }

  /** With `randomness == 0` a star sits exactly on its arm: no jitter and no
      elevation, `(cos(angle) * r, 0, sin(angle) * r)`. */
  lemma StarWithoutRandomness(p: Parameters, m: MathLib, i: nat, d: StarDraws)
    requires p.branches != 0 && p.randomness == 0.0
    ensures var r := StarRadius(p, d.radius);
            var angle := StarAngle(p, i, r);
            Star(p, m, i, d) == Vec3(m.cos(angle) * r, 0.0, m.sin(angle) * r)
  {
  }

  /** Without randomness and with a positive radius, no star reaches the
      rim: `(radius, 0, 0)` is never a star. */
  lemma InsideRimWithoutRandomness(p: Parameters, m: MathLib, i: nat, d: StarDraws)
    requires p.branches != 0 && p.randomness == 0.0 && p.radius > 0.0
    requires TrigBounded(m) && IsDraw(d.radius)
    ensures Star(p, m, i, d) != Vec3(p.radius, 0.0, 0.0)
  {
    var r := StarRadius(p, d.radius);
    var angle := StarAngle(p, i, r);
    assert Star(p, m, i, d).x == m.cos(angle) * r by {
      StarWithoutRandomness(p, m, i, d);
    }
    assert 0.0 <= r < p.radius by {
      StarRadiusInRange(p, d.radius);
    }
    assert Abs(m.cos(angle) * r) <= r by {
      ArmOffsetBounds(m, angle, r);
    }
  }

  /** With randomness the jitter can carry a star onto the rim. With
      randomness 2 and no spin, star 0 drawing half the radius and an x
      jitter of `0.5 * 2 * r` sits exactly at `(radius, 0, 0)`, whatever the
      radius and the number of arms. */
  lemma JitterReachesRim(p: Parameters, m: MathLib)
    requires p.branches != 0 && p.spin == 0.0 && p.randomness == 2.0
    requires m.cos(0.0) == 1.0 && m.sin(0.0) == 0.0
    requires m.pow(0.5, p.randomnessPower) == 0.5 && m.pow(0.0, p.randomnessPower) == 0.0
    ensures Star(p, m, 0, StarDraws(0.5, AxisDraw(0.5, 0.0), AxisDraw(0.0, 0.0), AxisDraw(0.0, 0.0)))
              == Vec3(p.radius, 0.0, 0.0)
  {
    var d := StarDraws(0.5, AxisDraw(0.5, 0.0), AxisDraw(0.0, 0.0), AxisDraw(0.0, 0.0));
    var r := StarRadius(p, 0.5);
    assert StarAngle(p, 0, r) == 0.0 by {
      assert Arm(p, 0) == 0;
    }
    assert Jitter(p, m, d.x, r) == r;
    assert Jitter(p, m, d.y, r) == 0.0 && Jitter(p, m, d.z, r) == 0.0;
    StarParts(p, m, 0, d, r);
  }

  /** Each arm is an Archimedean spiral: along one arm the angle grows by
      `100 * spin` per unit of distance from the centre, and without spin
      every star sits at its arm's branch angle. */
  lemma SpiralArm(p: Parameters, i: nat, j: nat, r: real, r': real)
    requires p.branches != 0 && Arm(p, i) == Arm(p, j)
    ensures StarAngle(p, j, r') - StarAngle(p, i, r) == 100.0 * p.spin * (r' - r)
    ensures p.spin == 0.0 ==> StarAngle(p, i, r) == BranchAngle(p, i)
  {
  }

  /** x and z are taken at the same angle: with its x and z jitters taken
      off, every star lies on the circle of its own radius in the xz-plane.
      Without randomness that is the star itself, at height 0. */
  lemma StarOnCircle(p: Parameters, m: MathLib, i: nat, d: StarDraws)
    requires p.branches != 0 && Pythagorean(m)
    ensures var s := Star(p, m, i, d);
            var r := StarRadius(p, d.radius);
            var ax, az := s.x - Jitter(p, m, d.x, r), s.z - Jitter(p, m, d.z, r);
            ax * ax + az * az == r * r
    ensures var s := Star(p, m, i, d);
            var r := StarRadius(p, d.radius);
            p.randomness == 0.0 ==> s.y == 0.0 && s.x * s.x + s.z * s.z == r * r
  {
    var r := StarRadius(p, d.radius);
    var angle := StarAngle(p, i, r);
    StarParts(p, m, i, d, r);
    var c, s := m.cos(angle), m.sin(angle);
    assert c * c + s * s == 1.0;
    calc {
      (c * r) * (c * r) + (s * r) * (s * r);
      (c * c + s * s) * (r * r);
      r * r;
    }
    if p.randomness == 0.0 {
      StarWithoutRandomness(p, m, i, d);
    }
  }

  /** Two arms, no spin, no randomness: even stars lie at angle 0 and odd
      stars at angle `Pi`, each at its own radius. */
  lemma TwoArmsWithoutSpin(p: Parameters, m: MathLib, random: nat -> real, i: nat)
    requires p.branches == 2 && p.spin == 0.0 && p.randomness == 0.0
    ensures var r := StarRadius(p, random(DrawsPerStar * i));
            var angle := if i % 2 == 0 then 0.0 else Pi;
            StarAt(p, m, random, i) == Vec3(m.cos(angle) * r, 0.0, m.sin(angle) * r)
  {
    var d := DrawsOf(random, i);
    StarWithoutRandomness(p, m, i, d);
    assert SpinAngle(p, StarRadius(p, d.radius)) == 0.0;
  }
}

=== FILE: lifecycle.dfy ===
/** The life of the one galaxy on screen: the `geometry`, `material` and
    `points` slots, `generateGalaxy` tearing the old cloud down and building
    the next one, the animation frame turning the current cloud, and the
    controls that either regenerate or only change the rotation speed.

    Three.js objects are modelled as handles. What the renderer would see of
    them is kept in maps from handle to content, and every `dispose`,
    `scene.remove` and `scene.add` is appended to an event log, so that the
    order of those calls can be stated and checked.
 */
module Lifecycle {
  import opened Numerics
  import opened Galaxy

  /** Identity of a Three.js object (a geometry, a material or a `Points`). */
  type Handle = nat

  datatype Option<T> = None | Some(value: T)

  /** The handles an optional slot holds: none, or the one it holds. */
  function Members(o: Option<Handle>): set<Handle> {
    if o.Some? then {o.value} else {}
  }

  /** A `THREE.Points`: the geometry and material it was built from, and its
      rotation about the y axis. */
  datatype Cloud = Cloud(geometry: Handle, material: Handle, rotationY: real)

  /** `dispose()` of a geometry or material, `scene.remove`, `scene.add`. */
  datatype Kind = Dispose | Remove | Add

  datatype Event = Event(kind: Kind, handle: Handle)

  /** `new Float32Array(n)` with a negative `n` throws a `RangeError`. */
  datatype JsError = RangeError

  /** Everything the galaxy code reads or writes.
      - `geometry`, `material`, `points`: the three module-level slots;
      - `next`: the next fresh handle;
      - `geometries`: every `BufferGeometry` ever created;
      - `positions`: the position attribute set on a geometry;
      - `materials`: every `PointsMaterial` ever created, with its `size`;
      - `clouds`: every `Points` ever created;
      - `disposed`: the handles `dispose()` was called on;
      - `scene`: the galaxy objects the scene holds;
      - `log`: the `dispose`, `remove` and `add` calls, in order. */
  datatype World = World(
    params: Parameters,
    geometry: Option<Handle>,
    material: Option<Handle>,
    points: Option<Handle>,
    next: Handle,
    geometries: set<Handle>,
    positions: map<Handle, seq<real>>,
    materials: map<Handle, real>,
    clouds: map<Handle, Cloud>,
    disposed: set<Handle>,
    scene: set<Handle>,
    log: seq<Event>)

  /** How a call of `generateGalaxy` ends: normally, or by throwing after it
      has already changed part of the world. */
  datatype Outcome = Done(world: World) | Threw(error: JsError, world: World)

  /** The state before the first call: all three slots `null`, nothing built. */
  function Init(params: Parameters): World {
    World(params, None, None, None, 0, {}, map[], map[], map[], {}, {}, [])
  }

  /** The effect of one logged call on the scene's contents. */
  function SceneAfter(scene: set<Handle>, e: Event): set<Handle> {
    match e.kind
    case Add => scene + {e.handle}
    case Remove => scene - {e.handle}
    case Dispose => scene
  }

  /** The scene's contents after replaying a log from an empty scene. */
  function SceneOf(log: seq<Event>): set<Handle>
    decreases |log|
  {
    if log == [] then {} else SceneAfter(SceneOf(log[..|log| - 1]), log[|log| - 1])
  }

  /** How many calls of one kind a log holds. */
  function Count(log: seq<Event>, k: Kind): nat
    decreases |log|
  {
    if log == [] then 0 else Count(log[..|log| - 1], k) + (if log[|log| - 1].kind == k then 1 else 0)
  }

  /** Every `scene.add` happened when the scene held no galaxy: the old cloud
      was always removed before the new one was added. */
  ghost predicate AddsIntoEmptyScene(log: seq<Event>) {
    forall i :: 0 <= i < |log| && log[i].kind == Add ==> SceneOf(log[..i]) == {}
  }

  /** Performs one logged call. */
  function Emit(w: World, e: Event): World {
    w.(disposed := if e.kind == Dispose then w.disposed + {e.handle} else w.disposed,
       scene := SceneAfter(w.scene, e),
       log := w.log + [e])
  }

  /** A non-null `points` comes with non-null `geometry` and `material`
      slots and names a built `Points`, so `geometry.dispose()` and
      `material.dispose()` in the teardown have something to call. It does
      not say the `Points` was built from those two: after a throw the
      `geometry` slot already holds a newer geometry. */
  predicate Slots(w: World) {
    w.points.Some? ==> w.geometry.Some? && w.material.Some? && w.points.value in w.clouds
  }

  /** Lines 48-53: when a galaxy exists, dispose its geometry and material and
      remove its `Points` from the scene, in that order. */
  function Teardown(w: World): (t: World)
    requires Slots(w)
    ensures Slots(t) && t.params == w.params
  {
    if w.points.Some? then
      var w1 := Emit(w, Event(Dispose, w.geometry.value));
      var w2 := Emit(w1, Event(Dispose, w.material.value));
      Emit(w2, Event(Remove, w.points.value))
    else
      w
  }

  /** Line 57: a fresh `BufferGeometry` goes into the `geometry` slot, before
      the buffer is allocated. */
  function NewGeometry(w: World): World {
    w.(geometry := Some(w.next), geometries := w.geometries + {w.next}, next := w.next + 1)
  }

  /** Lines 89-103, once the buffer is filled: it becomes the geometry's
      position attribute, a fresh material of the current `size` goes into
      the `material` slot and a fresh `Points` of the two into the `points`
      slot. Nothing is added to the scene yet. */
  function Build(w: World, buf: seq<real>): World
    requires w.geometry.Some?
  {
    var g, mat, pts := w.geometry.value, w.next, w.next + 1;
    w.(positions := w.positions[g := buf],
       material := Some(mat),
       materials := w.materials[mat := w.params.size],
       points := Some(pts),
       clouds := w.clouds[pts := Cloud(g, mat, 0.0)],
       next := pts + 1)
  }

  /** Line 104: `scene.add(points)`. */
  function Show(w: World): World
    requires w.points.Some?
  {
    Emit(w, Event(Add, w.points.value))
  }

  /** `generateGalaxy` (lines 45-105): tear down (48-53), store a fresh
      geometry (57), allocate the buffer (59, which throws for a negative
      count), fill it and build the material and the `Points` (65-103), and
      add the `Points` to the scene (104). */
  function Regenerate(w: World, m: MathLib, random: nat -> real): (o: Outcome)
    requires w.params.branches != 0 && Slots(w)
    ensures Slots(o.world) && o.world.params == w.params
    ensures o.Threw? <==> w.params.count < 0
    ensures o.Done? ==> o.world.points.Some? && o.world.points.value in o.world.scene
  {
    var t := NewGeometry(Teardown(w));
    if t.params.count < 0 then Threw(RangeError, t) else Done(Show(Build(t, Positions(t.params, m, random))))
  }

  /** `generateGalaxy` with the buffer filled by the loop of lines 65-87
      rather than by the reference definition: it ends exactly as
      `Regenerate` does. */
  method GenerateGalaxy(w: World, m: MathLib, random: nat -> real) returns (o: Outcome)
    requires w.params.branches != 0 && Slots(w)
    ensures o == Regenerate(w, m, random)
  {
    var t := NewGeometry(Teardown(w));
    if t.params.count < 0 {
      return Threw(RangeError, t);
    }
    var positions, writes := FillPositions(t.params, m, random);
    o := Done(Show(Build(t, positions)));
  }

  /** Lines 171-173: one animation frame turns the current `Points`, if any,
      by `rotationSpeed`; nothing else changes. */
  function Tick(w: World): (t: World)
    requires Slots(w)
    ensures Slots(t) && t.params == w.params
  {
    if w.points.Some? then
      var p := w.points.value;
      w.(clouds := w.clouds[p := w.clouds[p].(rotationY := w.clouds[p].rotationY + w.params.rotationSpeed)])
    else
      w
  }

  /** `n` animation frames in a row. */
  function Ticks(w: World, n: nat): World
    requires Slots(w)
  {
    if n == 0 then w else Tick(Ticks(w, n - 1))
  }

  /** A change made through one of the eight controls (lines 107-114). */
  datatype Edit =
    | SetCount(count: int)
    | SetSize(size: real)
    | SetSpin(spin: real)
    | SetRadius(radius: real)
    | SetBranches(branches: int)
    | SetRandomness(randomness: real)
    | SetRandomnessPower(randomnessPower: real)
    | SetRotationSpeed(rotationSpeed: real)

  /** The parameters after an edit: exactly the edited field changes. */
  function Apply(p: Parameters, e: Edit): Parameters {
    match e
    case SetCount(v) => p.(count := v)
    case SetSize(v) => p.(size := v)
    case SetSpin(v) => p.(spin := v)
    case SetRadius(v) => p.(radius := v)
    case SetBranches(v) => p.(branches := v)
    case SetRandomness(v) => p.(randomness := v)
    case SetRandomnessPower(v) => p.(randomnessPower := v)
    case SetRotationSpeed(v) => p.(rotationSpeed := v)
  }

  /** The range each control allows (its `min` and `max`). */
  predicate WithinControls(e: Edit) {
    match e
    case SetCount(v) => 100 <= v <= 1000000
    case SetSize(v) => 0.001 <= v <= 0.1
    case SetSpin(v) => -5.0 <= v <= 5.0
    case SetRadius(v) => 0.01 <= v <= 20.0
    case SetBranches(v) => 2 <= v <= 20
    case SetRandomness(v) => 0.0 <= v <= 2.0
    case SetRandomnessPower(v) => 1.0 <= v <= 10.0
    case SetRotationSpeed(v) => -0.01 <= v <= 0.01
  }

  /** An edit that leaves the number of arms usable (non-zero). */
  predicate KeepsArms(e: Edit) {
    e.SetBranches? ==> e.branches != 0
  }

  /** Finishing an edit: every control but the rotation speed calls
      `generateGalaxy` (`onFinishChange`); the rotation speed is only stored
      and read by the next frame. */
  function Commit(w: World, e: Edit, m: MathLib, random: nat -> real): (o: Outcome)
    requires w.params.branches != 0 && Slots(w) && KeepsArms(e)
    ensures Slots(o.world) && o.world.params == Apply(w.params, e) && o.world.params.branches != 0
  {
    var w' := w.(params := Apply(w.params, e));
    if e.SetRotationSpeed? then Done(w') else Regenerate(w', m, random)
  }

  /** What happens between two frames: a frame, or a finished edit with the
      `Math.random()` results the regeneration it triggers would read. */
  datatype Action = Frame | Change(edit: Edit, random: nat -> real)

  predicate ActionsKeepArms(acts: seq<Action>) {
    forall i :: 0 <= i < |acts| && acts[i].Change? ==> KeepsArms(acts[i].edit)
  }

  /** One frame or one finished edit. A throwing `generateGalaxy` only ends
      that event handler, so the world goes on as it was left. */
  function Step(w: World, m: MathLib, a: Action): World
    requires w.params.branches != 0 && Slots(w) && (a.Change? ==> KeepsArms(a.edit))
  {
    match a
    case Frame => Tick(w)
    case Change(e, random) => Commit(w, e, m, random).world
  }

  /** A run of frames and edits, in order. */
  function Run(w: World, m: MathLib, acts: seq<Action>): World
    requires w.params.branches != 0 && Slots(w) && ActionsKeepArms(acts)
    decreases |acts|
  {
    if acts == [] then w else Run(Step(w, m, acts[0]), m, acts[1..])
  }

  /** The actions that call `generateGalaxy`: the finished edits of every
      control but the rotation speed. */
  predicate Regenerates(a: Action) {
    a.Change? && !a.edit.SetRotationSpeed?
  }

  /** How many actions of a run call `generateGalaxy`. */
  function Regenerations(acts: seq<Action>): nat
    decreases |acts|
  {
    if acts == [] then 0 else (if Regenerates(acts[0]) then 1 else 0) + Regenerations(acts[1..])
  }

  /** Line 117: the first `generateGalaxy()`. The program runs it on the
      constants of lines 32-39; here the parameters are an argument, so the
      throwing branch covers a case the program never reaches. */
  function Startup(params: Parameters, m: MathLib, random: nat -> real): (o: Outcome)
    requires params.branches != 0
    ensures o.Threw? <==> params.count < 0
    ensures o.Done? ==> o.world.points.Some? && o.world.points.value in o.world.scene
  {
    Regenerate(Init(params), m, random)
  }
}

=== FILE: lifecycle_facts.dfy ===
/** What the galaxy lifecycle keeps true: at most one galaxy in the scene,
    the scene is exactly what the logged calls produced, every `scene.add`
    lands in an empty scene, and in a run whose edits stay within the
    controls' ranges, every geometry and material but the current ones is
    disposed. A negative `count` breaks the last promise.
 */
module LifecycleFacts {
  import opened Numerics
  import opened Galaxy
  import opened Lifecycle

  /** Every handle in use was allocated, and every object refers to objects
      that exist. */
  ghost predicate Allocated(w: World) {
    && (forall h :: h in w.geometries ==> h < w.next)
    && (forall h :: h in w.materials ==> h < w.next)
    && (forall h :: h in w.clouds ==> h < w.next)
    && (forall h :: h in w.disposed ==> h < w.next)
    && (w.geometry.Some? ==> w.geometry.value in w.geometries)
    && (w.material.Some? ==> w.material.value in w.materials)
  }

  /** Holds of every reachable world, including one a throwing call left
      behind: the scene holds at most the `Points` in the slot, the scene is
      what the log of calls produced, and every `add` went into an empty
      scene. */
  ghost predicate Inv(w: World) {
    && w.params.branches != 0
    && Slots(w)
    && Allocated(w)
    && w.scene <= Members(w.points)
    && w.scene == SceneOf(w.log)
    && AddsIntoEmptyScene(w.log)
  }

  /** Every geometry and material other than the ones in the slots has been
      disposed. */
  ghost predicate NoLeak(w: World) {
    && (forall h :: h in w.geometries && Some(h) != w.geometry ==> h in w.disposed)
    && (forall h :: h in w.materials && Some(h) != w.material ==> h in w.disposed)
  }

  /** The slot's `Points` is in the scene, alone, and built from the live
      geometry and material in the other two slots. */
  ghost predicate Showing(w: World) {
    && w.points.Some? && w.geometry.Some? && w.material.Some?
    && w.points.value in w.clouds
    && w.scene == {w.points.value}
    && w.clouds[w.points.value].geometry == w.geometry.value
    && w.clouds[w.points.value].material == w.material.value
    && w.geometry.value in w.positions
    && w.geometry.value !in w.disposed && w.material.value !in w.disposed
  }

  /** The state after a first call that returns and any later frames and
      edits within the controls' ranges: one galaxy on show, one removal
      fewer than additions, two disposals per removal, no leak. */
  ghost predicate Live(w: World) {
    && Inv(w)
    && w.params.count >= 0
    && Showing(w)
    && Count(w.log, Remove) + 1 == Count(w.log, Add)
    && Count(w.log, Dispose) == 2 * Count(w.log, Remove)
    && NoLeak(w)
  }

  /** Replaying one more call changes the scene by that call alone. */
  lemma SceneOfAppend(log: seq<Event>, e: Event)
    ensures SceneOf(log + [e]) == SceneAfter(SceneOf(log), e)
  {
    assert (log + [e])[..|log|] == log;
  }

  /** One more call raises the count of its own kind by one and no other. */
  lemma CountAppend(log: seq<Event>, e: Event, k: Kind)
    ensures Count(log + [e], k) == Count(log, k) + (if e.kind == k then 1 else 0)
  {
    assert (log + [e])[..|log|] == log;
  }

  /** One call appended to a log raises the count of its own kind by one. */
  lemma CountOne(log: seq<Event>, e: Event)
    ensures forall k :: Count(log + [e], k) == Count(log, k) + (if e.kind == k then 1 else 0)
  {
    assert (log + [e])[..|log|] == log;
  }

  /** The seven calls of a throwing call followed by a successful one remove
      twice and add once, so a log with one more addition than removals ends
      with as many of each. */
  lemma TwiceRemoved(log: seq<Event>, log': seq<Event>, log'': seq<Event>, g: Handle, mat: Handle, p: Handle, g': Handle, p': Handle)
    requires Count(log, Remove) + 1 == Count(log, Add)
    requires log' == log + [Event(Dispose, g), Event(Dispose, mat), Event(Remove, p)]
    requires log'' == log' + [Event(Dispose, g'), Event(Dispose, mat), Event(Remove, p), Event(Add, p')]
    ensures Count(log'', Remove) == Count(log'', Add)
    ensures Count(log'', Dispose) == Count(log, Dispose) + 4
  {
    var l1 := log + [Event(Dispose, g)];
    var l2 := l1 + [Event(Dispose, mat)];
    var l3 := l2 + [Event(Remove, p)];
    var l4 := l3 + [Event(Dispose, g')];
    var l5 := l4 + [Event(Dispose, mat)];
    var l6 := l5 + [Event(Remove, p)];
    var l7 := l6 + [Event(Add, p')];
    CountOne(log, Event(Dispose, g));
    CountOne(l1, Event(Dispose, mat));
    CountOne(l2, Event(Remove, p));
    CountOne(l3, Event(Dispose, g'));
    CountOne(l4, Event(Dispose, mat));
    CountOne(l5, Event(Remove, p));
    CountOne(l6, Event(Add, p'));
    assert l3 == log';
    assert l7 == log'';
  }

  /** An `add` into an empty scene keeps every `add` landing in an empty scene. */
  lemma AddsAppend(log: seq<Event>, e: Event)
    requires AddsIntoEmptyScene(log)
    requires e.kind == Add ==> SceneOf(log) == {}
    ensures AddsIntoEmptyScene(log + [e])
  {
    var log' := log + [e];
    forall i | 0 <= i < |log'| && log'[i].kind == Add
      ensures SceneOf(log'[..i]) == {}
    {
      if i < |log| {
        assert log'[..i] == log[..i];
      } else {
        assert log'[..i] == log;
      }
    }
  }

  /** A logged call keeps the invariant when a disposal targets an existing
      geometry or material and an `add` adds the slot's `Points` to a scene
      without a galaxy. */
  lemma EmitInv(w: World, e: Event)
    requires Inv(w)
    requires e.kind == Dispose ==> e.handle < w.next
    requires e.kind == Add ==> w.scene == {} && w.points == Some(e.handle)
    ensures Inv(Emit(w, e))
    ensures forall k :: Count(Emit(w, e).log, k) == Count(w.log, k) + (if e.kind == k then 1 else 0)
  {
    SceneOfAppend(w.log, e);
    AddsAppend(w.log, e);
    forall k
      ensures Count(Emit(w, e).log, k) == Count(w.log, k) + (if e.kind == k then 1 else 0)
    {
      CountAppend(w.log, e, k);
    }
    assert Allocated(Emit(w, e));
  }

  /** The state before the first call satisfies the invariant. */
  lemma InitInv(params: Parameters)
    requires params.branches != 0
    ensures Inv(Init(params)) && Init(params).scene == {} && Count(Init(params).log, Add) == 0
  {
  }

  /** The teardown keeps the invariant and leaves the scene without a galaxy;
      if there was one, its geometry and material are now disposed. */
  lemma TeardownEmptiesScene(w: World)
    requires Inv(w)
    ensures Inv(Teardown(w)) && Teardown(w).scene == {}
    ensures forall k :: Count(Teardown(w).log, k) == Count(w.log, k) + (if w.points.None? then 0 else if k == Dispose then 2 else if k == Remove then 1 else 0)
    ensures w.points.Some? ==> w.geometry.value in Teardown(w).disposed && w.material.value in Teardown(w).disposed
  {
    if w.points.Some? {
      var w1 := Emit(w, Event(Dispose, w.geometry.value));
      EmitInv(w, Event(Dispose, w.geometry.value));
      var w2 := Emit(w1, Event(Dispose, w.material.value));
      EmitInv(w1, Event(Dispose, w.material.value));
      EmitInv(w2, Event(Remove, w.points.value));
    }
  }

  /** The fresh geometry of line 57 keeps the invariant and is not disposed. */
  lemma NewGeometryInv(w: World)
    requires Inv(w)
    ensures Inv(NewGeometry(w)) && w.next !in NewGeometry(w).disposed
  {
    assert Allocated(NewGeometry(w));
  }

  /** Building keeps the invariant while the scene is empty, and the fresh
      material is not disposed. */
  lemma BuildInv(w: World, buf: seq<real>)
    requires Inv(w) && w.scene == {} && w.geometry.Some?
    ensures Inv(Build(w, buf)) && w.next !in Build(w, buf).disposed
  {
    assert Allocated(Build(w, buf));
  }

  /** With a negative count, `generateGalaxy` throws at line 59 after the
      teardown and after line 57 has put a fresh geometry in the slot: the
      invariant holds, the scene holds no galaxy, yet the `points` slot still
      names the old one. */
  lemma RegenerateThrows(w: World, m: MathLib, random: nat -> real)
    requires Inv(w) && w.params.count < 0
    ensures var o := Regenerate(w, m, random);
            && o.Threw? && o.error == RangeError && Inv(o.world)
            && o.world.scene == {} && o.world.points == w.points
            && o.world.geometry == Some(w.next) && w.next !in o.world.disposed
  {
    TeardownEmptiesScene(w);
    NewGeometryInv(Teardown(w));
  }

  /** With a count of zero or more, `generateGalaxy` returns with the
      invariant kept and the new `Points` alone in the scene, built from the
      fresh geometry holding the generated buffer and from the fresh material
      sized by `size`, with no rotation yet. */
  lemma RegenerateShows(w: World, m: MathLib, random: nat -> real)
    requires Inv(w) && w.params.count >= 0
    ensures var o := Regenerate(w, m, random);
            && o.Done? && Inv(o.world) && Showing(o.world)
            && o.world.positions[o.world.geometry.value] == Positions(w.params, m, random)
            && o.world.materials[o.world.material.value] == w.params.size
            && o.world.clouds[o.world.points.value].rotationY == 0.0
  {
    var t := Teardown(w);
    TeardownEmptiesScene(w);
    var t1 := NewGeometry(t);
    NewGeometryInv(t);
    var b := Build(t1, Positions(t1.params, m, random));
    BuildInv(t1, Positions(t1.params, m, random));
    EmitInv(b, Event(Add, b.points.value));
  }

  /** `generateGalaxy` keeps the invariant whether it returns or throws. */
  lemma RegenerateInv(w: World, m: MathLib, random: nat -> real)
    requires Inv(w)
    ensures Inv(Regenerate(w, m, random).world)
  {
    if w.params.count < 0 {
      RegenerateThrows(w, m, random);
    } else {
      RegenerateShows(w, m, random);
    }
  }

  /** Between the teardown and the new galaxy: nothing on show, every
      geometry and material built so far disposed, and as many removals as
      additions, with two disposals each. */
  ghost predicate Cleared(w: World) {
    && Inv(w)
    && w.params.count >= 0
    && w.scene == {}
    && (forall h :: h in w.geometries ==> h in w.disposed)
    && (forall h :: h in w.materials ==> h in w.disposed)
    && Count(w.log, Remove) == Count(w.log, Add)
    && Count(w.log, Dispose) == 2 * Count(w.log, Remove)
  }

  /** Tearing down a live galaxy, or nothing at all at the start, clears. */
  lemma TeardownClears(w: World)
    requires Live(w) || w == Init(w.params)
    requires w.params.branches != 0 && w.params.count >= 0
    ensures Cleared(Teardown(w))
  {
    if w == Init(w.params) {
      InitInv(w.params);
    }
    TeardownEmptiesScene(w);
  }

  /** From a cleared world, the new geometry, material and `Points` make a
      live world with one more generation. */
  lemma RebuildLive(t: World, m: MathLib, random: nat -> real)
    requires Cleared(t)
    ensures Live(Show(Build(NewGeometry(t), Positions(t.params, m, random))))
    ensures Count(Show(Build(NewGeometry(t), Positions(t.params, m, random))).log, Add) == Count(t.log, Add) + 1
  {
    var t1 := NewGeometry(t);
    NewGeometryInv(t);
    var b := Build(t1, Positions(t1.params, m, random));
    BuildInv(t1, Positions(t1.params, m, random));
    EmitInv(b, Event(Add, b.points.value));
  }

  /** From the initial state or from a live galaxy, a call that does not
      throw replaces the galaxy: the result is live again, with one more
      generation and a `Points` other than the old one. */
  lemma RegenerateReplaces(w: World, m: MathLib, random: nat -> real)
    requires Live(w) || w == Init(w.params)
    requires w.params.branches != 0 && w.params.count >= 0
    ensures var o := Regenerate(w, m, random);
            && o.Done? && Live(o.world)
            && Count(o.world.log, Add) == Count(w.log, Add) + 1
            && o.world.points.value !in Members(w.points)
  {
    var t := Teardown(w);
    TeardownClears(w);
    RebuildLive(t, m, random);
    if w == Init(w.params) {
      InitInv(w.params);
    }
    TeardownEmptiesScene(w);
  }

  /** Whenever a galaxy exists, the old geometry and material are disposed
      and the old `Points` removed, in that order, before the new `Points` is
      added. */
  lemma RegenerateOrder(w: World, m: MathLib, random: nat -> real)
    requires Inv(w) && w.points.Some? && w.params.count >= 0
    ensures var o := Regenerate(w, m, random);
            && o.Done?
            && o.world.log == w.log + [Event(Dispose, w.geometry.value), Event(Dispose, w.material.value),
                                       Event(Remove, w.points.value), Event(Add, o.world.points.value)]
            && w.geometry.value in o.world.disposed && w.material.value in o.world.disposed
            && w.points.value !in o.world.scene
  {
  }

  /** A throwing call (negative `count`) leaves no galaxy in the scene; the
      next call that does not throw shows one galaxy again. */
  lemma RecoversAfterThrow(w: World, m: MathLib, random: nat -> real, params: Parameters, random': nat -> real)
    requires Inv(w) && w.params.count < 0
    requires params.branches != 0 && params.count >= 0
    ensures var o := Regenerate(w, m, random);
            o.Threw? && o.world.scene == {}
            && Showing(Regenerate(o.world.(params := params), m, random').world)
  {
    var o := Regenerate(w, m, random);
    RegenerateThrows(w, m, random);
    RegenerateShows(o.world.(params := params), m, random');
  }

  /** What a throwing call on a world with a galaxy logs, and the slots it
      leaves: the full teardown, then a fresh geometry, with `points` and
      `material` still naming the torn-down pair. */
  lemma ThrowLog(w: World, m: MathLib, random: nat -> real)
    requires Inv(w) && w.points.Some? && w.params.count < 0
    ensures var o := Regenerate(w, m, random);
            && o.Threw? && Inv(o.world)
            && o.world.log == w.log + [Event(Dispose, w.geometry.value), Event(Dispose, w.material.value),
                                       Event(Remove, w.points.value)]
            && o.world.points == w.points && o.world.material == w.material
            && o.world.geometry == Some(w.next) && o.world.next == w.next + 1
  {
    RegenerateThrows(w, m, random);
  }

  /** A world with as many removals as additions is not live. */
  lemma NotLive(w: World)
    requires Count(w.log, Remove) == Count(w.log, Add)
    ensures !Live(w)
  {
  }

  /** A throw breaks the counts of a live world. The throwing call has
      already removed the old `Points` and disposed its geometry and
      material, yet leaves `points` naming it. The next call that returns
      tears down again. It disposes the fresh geometry of the failed call,
      disposes the old material a second time and removes the old `Points` a
      second time. Afterwards there are as many removals as additions, so the
      world is no longer live. */
  lemma ThrowRepeatsTeardown(w: World, m: MathLib, c: int, random: nat -> real, params: Parameters, random': nat -> real)
    requires Live(w) && c < 0
    requires params.branches != 0 && params.count >= 0
    ensures var o := Regenerate(w.(params := w.params.(count := c)), m, random);
            && o.Threw?
            && var o' := Regenerate(o.world.(params := params), m, random');
            && o'.Done?
            && o'.world.log == w.log + [Event(Dispose, w.geometry.value), Event(Dispose, w.material.value),
                                        Event(Remove, w.points.value)]
                                     + [Event(Dispose, w.next), Event(Dispose, w.material.value),
                                        Event(Remove, w.points.value), Event(Add, o'.world.points.value)]
            && Count(o'.world.log, Remove) == Count(o'.world.log, Add)
            && Count(o'.world.log, Dispose) == Count(w.log, Dispose) + 4
            && !Live(o'.world)
  {
    var v := w.(params := w.params.(count := c));
    var o := Regenerate(v, m, random);
    ThrowLog(v, m, random);
    var u := o.world.(params := params);
    var o' := Regenerate(u, m, random');
    RegenerateOrder(u, m, random');
    TwiceRemoved(w.log, u.log, o'.world.log, w.geometry.value, w.material.value, w.points.value, w.next, o'.world.points.value);
    NotLive(o'.world);
  }

  /** A throw on the very first call leaks: line 57 has already put a fresh
      geometry in the slot, but `points` is still `null`, so the next call
      skips the teardown and that geometry is never disposed. */
  lemma StartupThrowLeaks(params: Parameters, m: MathLib, random: nat -> real, params': Parameters, random': nat -> real)
    requires params.branches != 0 && params.count < 0
    requires params'.branches != 0 && params'.count >= 0
    ensures var o := Startup(params, m, random);
            && o.Threw?
            && var o' := Regenerate(o.world.(params := params'), m, random');
            && o'.Done?
            && o.world.geometry.value in o'.world.geometries
            && o.world.geometry.value !in o'.world.disposed
            && o'.world.geometry != o.world.geometry
            && !NoLeak(o'.world)
  {
    InitInv(params);
    RegenerateThrows(Init(params), m, random);
  }

  /** One frame turns the galaxy on show by exactly `rotationSpeed` and keeps
      everything else, so a live world stays live. */
  lemma TickTurns(w: World)
    requires Live(w)
    ensures Live(Tick(w))
    ensures Tick(w).clouds[w.points.value].rotationY == w.clouds[w.points.value].rotationY + w.params.rotationSpeed
    ensures Tick(w).scene == w.scene && Tick(w).log == w.log
  {
  }

  /** Before the first galaxy exists (`points` still `null`) a frame changes
      nothing. */
  lemma TickWithoutGalaxy(w: World)
    requires Slots(w) && w.points.None?
    ensures Tick(w) == w
  {
  }

  /** `n` frames turn the galaxy in the slot by `n * rotationSpeed` and leave
      every other part of the world as it was. */
  lemma {:induction false} TicksTurn(w: World, n: nat)
    requires Slots(w) && w.points.Some?
    ensures Ticks(w, n).(clouds := w.clouds) == w
    ensures w.points.value in Ticks(w, n).clouds
    ensures Ticks(w, n).clouds[w.points.value].rotationY == w.clouds[w.points.value].rotationY + n as real * w.params.rotationSpeed
    ensures forall h :: h in w.clouds && h != w.points.value ==> h in Ticks(w, n).clouds && Ticks(w, n).clouds[h] == w.clouds[h]
  {
    if n > 0 {
      TicksTurn(w, n - 1);
      var v := Ticks(w, n - 1);
      assert v.points == w.points && v.params == w.params;
      assert (n - 1) as real * w.params.rotationSpeed + w.params.rotationSpeed == n as real * w.params.rotationSpeed;
    }
  }

  /** Changing the rotation speed does not regenerate: nothing is created,
      disposed, removed or added; the next frame turns by the new speed. */
  lemma SpeedEditKeepsGalaxy(w: World, v: real, m: MathLib, random: nat -> real)
    requires Live(w)
    ensures var o := Commit(w, SetRotationSpeed(v), m, random);
            && o.Done? && Live(o.world)
            && o.world.log == w.log && o.world.next == w.next && o.world.points == w.points
            && o.world.params == w.params.(rotationSpeed := v)
            && Tick(o.world).clouds[w.points.value].rotationY == w.clouds[w.points.value].rotationY + v
  {
  }

  /** Every other control regenerates when its edit finishes: within the
      controls' ranges the count is at least 100, so nothing throws, the
      world stays live, one generation is added, and the new galaxy reflects
      the edited parameters. */
  lemma EditRegenerates(w: World, e: Edit, m: MathLib, random: nat -> real)
    requires Live(w) && WithinControls(e) && !e.SetRotationSpeed?
    ensures var o := Commit(w, e, m, random);
            && o.Done? && Live(o.world)
            && Count(o.world.log, Add) == Count(w.log, Add) + 1
            && o.world.points != w.points
            && o.world.positions[o.world.geometry.value] == Positions(Apply(w.params, e), m, random)
            && o.world.materials[o.world.material.value] == Apply(w.params, e).size
  {
    var w' := w.(params := Apply(w.params, e));
    assert Live(w');
    RegenerateReplaces(w', m, random);
    RegenerateShows(w', m, random);
  }

  /** Every edit within the controls' ranges keeps the number of arms
      non-zero. */
  lemma ControlsKeepArms(acts: seq<Action>)
    requires ActionsWithinControls(acts)
    ensures ActionsKeepArms(acts)
  {
  }

  /** The invariant allows at most one galaxy in the scene. */
  lemma AtMostOneGalaxy(w: World)
    requires Inv(w)
    ensures |w.scene| <= 1
  {
    if w.scene != {} {
      assert w.scene == {w.points.value};
    }
  }

  /** Any frame or edit keeps the invariant. */
  lemma StepKeepsInv(w: World, m: MathLib, a: Action)
    requires Inv(w) && (a.Change? ==> KeepsArms(a.edit))
    ensures Inv(Step(w, m, a))
  {
    if a.Change? {
      RegenerateInv(w.(params := Apply(w.params, a.edit)), m, a.random);
    }
  }

  /** Whatever frames and edits follow, the invariant survives: never more
      than one galaxy in the scene, and no `add` into a scene that holds one. */
  lemma {:induction false} RunKeepsInv(w: World, m: MathLib, acts: seq<Action>)
    requires Inv(w) && ActionsKeepArms(acts)
    decreases |acts|
    ensures Inv(Run(w, m, acts)) && |Run(w, m, acts).scene| <= 1
  {
    if acts == [] {
      AtMostOneGalaxy(w);
    } else {
      StepKeepsInv(w, m, acts[0]);
      assert ActionsKeepArms(acts[1..]) by {
        forall i | 0 <= i < |acts[1..]|
          ensures acts[1..][i] == acts[i + 1]
        {
        }
      }
      RunKeepsInv(Step(w, m, acts[0]), m, acts[1..]);
    }
  }

  /** Every edit in the sequence stays within the controls' ranges. */
  predicate ActionsWithinControls(acts: seq<Action>) {
    forall i :: 0 <= i < |acts| && acts[i].Change? ==> WithinControls(acts[i].edit)
  }

  /** Through the controls, any frame or edit keeps a live world live; only
      an edit that regenerates adds a galaxy. */
  lemma StepKeepsLive(w: World, m: MathLib, a: Action)
    requires Live(w) && (a.Change? ==> WithinControls(a.edit))
    ensures var w' := Step(w, m, a);
            && Live(w')
            && Count(w'.log, Add) == Count(w.log, Add) + (if Regenerates(a) then 1 else 0)
  {
    match a {
      case Frame =>
        assert Step(w, m, a) == Tick(w);
        TickTurns(w);
      case Change(e, random) =>
        assert Step(w, m, a) == Commit(w, e, m, random).world;
        if e.SetRotationSpeed? {
          SpeedEditKeepsGalaxy(w, e.rotationSpeed, m, random);
        } else {
          EditRegenerates(w, e, m, random);
        }
    }
  }

  /** Through the controls alone, a live galaxy stays live: one galaxy on
      show, one removal fewer than additions, and no leaked geometry or
      material. Each finished edit but the rotation speed's adds exactly one
      galaxy; frames and speed edits add none. */
  lemma {:induction false} RunKeepsLive(w: World, m: MathLib, acts: seq<Action>)
    requires Live(w) && ActionsWithinControls(acts)
    decreases |acts|
    ensures ActionsKeepArms(acts) && var r := Run(w, m, acts);
            Live(r) && Count(r.log, Add) == Count(w.log, Add) + Regenerations(acts)
  {
    ControlsKeepArms(acts);
    if acts != [] {
      StepKeepsLive(w, m, acts[0]);
      assert ActionsWithinControls(acts[1..]) by {
        forall i | 0 <= i < |acts[1..]|
          ensures acts[1..][i] == acts[i + 1]
        {
        }
      }
      RunKeepsLive(Step(w, m, acts[0]), m, acts[1..]);
    }
  }

  /** Line 117: the first call on parameters with a non-negative count shows
      exactly one galaxy, with a single `add` logged and nothing disposed. */
  lemma StartupShowsOne(params: Parameters, m: MathLib, random: nat -> real)
    requires params.branches != 0 && params.count >= 0
    ensures var o := Startup(params, m, random);
            && o.Done? && Live(o.world)
            && o.world.log == [Event(Add, o.world.points.value)]
            && o.world.disposed == {}
            && |o.world.positions[o.world.geometry.value]| == 3 * params.count
  {
    RegenerateReplaces(Init(params), m, random);
  }

  /** With `count == 0` the buffer is empty, yet a (starless) `Points` is
      still built and shown. */
  lemma EmptyGalaxy(w: World, m: MathLib, random: nat -> real)
    requires Inv(w) && w.params.count == 0
    ensures var o := Regenerate(w, m, random);
            o.Done? && Showing(o.world) && o.world.positions[o.world.geometry.value] == []
  {
  }

  /** The program as it starts: the initial parameters give a galaxy on
      show, built from 3000 numbers, three per star. */
  lemma DefaultStartup(m: MathLib, random: nat -> real)
    ensures var o := Startup(Defaults, m, random);
            && o.Done? && Live(o.world)
            && o.world.positions[o.world.geometry.value] == Positions(Defaults, m, random)
            && |o.world.positions[o.world.geometry.value]| == 3000
  {
    StartupShowsOne(Defaults, m, random);
  }
}

=== FILE: numerics.dfy ===
/** The numeric environment the galaxy generator runs in.

    The generator calls `Math.cos`, `Math.sin`, `Math.pow` and `Math.random`.
    None of them is computed here: the first three are carried as
    function-valued fields of a `MathLib` the caller supplies, and the random
    source is a caller-supplied stream of draws. What the proofs need of them
    is stated as ghost predicates (ranges only), never as exact values.
 */
module Numerics {

  /** `Math.PI`, as printed by JavaScript. */
  const Pi: real := 3.141592653589793

  /** The three transcendental functions the generator uses, left uninterpreted. */
  datatype MathLib = MathLib(cos: real -> real, sin: real -> real, pow: (real, real) -> real)

  /** A value `Math.random()` can return. */
  predicate IsDraw(u: real) {
    0.0 <= u < 1.0
  }

  /** A stream of `Math.random()` results, indexed by call number. */
  ghost predicate IsDrawStream(random: nat -> real) {
    forall k: nat :: IsDraw(random(k))
  }

  /** Raising a draw to an exponent of at least one stays inside `[0, 1)`. */
  ghost predicate PowKeepsDraws(m: MathLib) {
    forall u, e :: IsDraw(u) && 1.0 <= e ==> IsDraw(m.pow(u, e))
  }

  /** Cosine and sine stay within `[-1, 1]`. */
  ghost predicate TrigBounded(m: MathLib) {
    forall t :: -1.0 <= m.cos(t) <= 1.0 && -1.0 <= m.sin(t) <= 1.0
  }

  /** `cos(t)^2 + sin(t)^2 == 1` for every angle. */
  ghost predicate Pythagorean(m: MathLib) {
    forall t :: m.cos(t) * m.cos(t) + m.sin(t) * m.sin(t) == 1.0
  }

  function Abs(x: real): real {
    if x < 0.0 then -x else x
  }

  /** One more copy of `b`: `(k + 1) * b == k * b + b`. */
  lemma MulSucc(k: int, b: int)
    ensures (k + 1) * b == k * b + b
  {
  }

  lemma MulLe(a: real, b: real, c: real)
    requires a <= b && c >= 0.0
    ensures a * c <= b * c
  {
    assert (b - a) * c >= 0.0;
  }

  lemma MulLt(a: real, b: real, c: real)
    requires a < b && c > 0.0
    ensures a * c < b * c
  {
    assert (b - a) * c > 0.0;
  }

  lemma ScaleLe(c: real, a: real, b: real)
    requires a <= b && c >= 0.0
    ensures c * a <= c * b
  {
    assert c * (b - a) >= 0.0;
  }

  /** Scaling by a factor in `[-1, 1]` does not increase a magnitude. */
  lemma ScaledUnit(c: real, r: real)
    requires -1.0 <= c <= 1.0 && r >= 0.0
    ensures Abs(c * r) <= r
  {
    if c >= 0.0 {
      MulLe(c, 1.0, r);
      MulLe(0.0, c, r);
    } else {
      MulLe(-c, 1.0, r);
      MulLe(0.0, -c, r);
      assert (-c) * r == -(c * r);
    }
  }

  lemma MulAtLeast(b: int, d: int)
    requires b > 0 && d >= 1
    ensures b * d >= b
  {
    assert b * d == b * (d - 1) + b;
    assert b * (d - 1) >= 0;
  }

  /** Euclidean division is unique: `a == b * q + r` with `0 <= r < b`
      fixes both quotient and remainder. */
  lemma DivModUnique(a: int, b: int, q: int, r: int)
    requires b > 0 && a == b * q + r && 0 <= r < b
    ensures a % b == r && a / b == q
  {
    var q', r' := a / b, a % b;
    assert b * q' + r' == b * q + r;
    if q' < q {
      assert b * (q - q') == r' - r;
      MulAtLeast(b, q - q');
    } else if q' > q {
      assert b * (q' - q) == r - r';
      MulAtLeast(b, q' - q);
    }
  }
}
